=== FILE: README.md ===
# IHFA mock API server: request validation and route registration

This project models the request-validation core of a configuration-driven mock HTTP API server. The server reads an endpoint catalog. Each entry has a method, an optional `headers.Authorization` marker, an optional `request` object of expected values, and a canned `response`. The server binds every entry under `/mock`. A route-specific handler checks the request against the entry and returns one of these answers: a 401 authorization failure, a 200 failure envelope with one specific message, the canned response, the default handler's echo of the request, or the health handler's default payload.

Each handler is a pure function `(Def, Request) -> Outcome`:

- `JsValues` holds the JavaScript values a JSON body or catalog can contain (`undefined`, `null`, booleans, numbers, strings). It also defines JavaScript truthiness, `===` (datatype equality), `String(v)`, ASCII `toLowerCase` and `startsWith`. A `Shape` is a catalog value read with property access: an object, or a scalar whose properties are all `undefined`. `GuardedGet` models `x && x.k` and `DefaultedGet` models `(x || {}).k`. The handlers use both forms, and the difference is visible (see `Properties.LoginNullRequestAdmitsNulls`).
- `Catalog` holds the entry (`Def`), the request (authorization header plus body), the `Outcome` (`Unauthorized | Fail(message) | Canned(payload) | Echo | HealthDefault`), the HTTP status, and every message and accepted spelling as a constant.
- `Auth` is `hasValidAuth`.
- `Handlers` has one function per handler factory (fifteen, plus the default `buildHandler`) and `Handle`, which applies the handler of a `Family`.
- `Policy` is an independent reference description. Each family gets an ordered table of (condition, message) rows, and the first failing row wins. `HandlersFollowPolicy` proves that every handler's nested conditionals answer as its table says.
- `Registry` models the registration loop: method normalisation, the five-verb filter, the `/mock` prefix, and the route-to-family switch.
- `Properties` holds the lemmas that relate several calls or several handlers.

The model is stateless by construction. No function takes or returns server state, so repeating a request always gives the same outcome.

Three points where the code is easy to misread; the model follows the code as written:

- The token handler never runs the authorization check, even when the catalog marks the route as needing the header. The health handler skips it too.
- The OTP validators compare the code with the expected code before they test the `"000000"` expiry literal. An expected code of `"000000"` is therefore accepted.
- The registration switch names fifteen special routes, including `/__health`. Every other route gets the default handler, and the default handler does enforce the authorization check.

## Model

| member | source | states |
|---|---|---|
| Catalog.StatusCode | server.js:36-42 | Only the authorization failure is answered with 401. Every other outcome, business failures included, is a 200. |
| Auth.HasValidAuth | server.js:21-29 | The check fails exactly when `headers` is an object whose `Authorization` is truthy and the request has no header starting with `Bearer `. |
| Auth.AnyBearerTokenPasses | server.js:21-29 | Whatever token follows `Bearer `, the check passes, so the token is never inspected. |
| Auth.OnlyPrefixMatters | server.js:21-29 | Two requests that agree on whether the header has the `Bearer ` prefix get the same verdict. |
| Auth.LowerCaseBearerRefused | server.js:24 | The prefix test is case-sensitive: a `bearer ` header is refused when the catalog requires the header. |
| Handlers.BuildHandler | server.js:34-57 | 401 iff the auth check fails. Otherwise the canned response if it is truthy, else the echo envelope. |
| Handlers.TokenHandler | server.js:64-76 | Never 401. Canned iff `authenticationKey` is truthy and not `'invalid'`, else "Invalid authentication key.". |
| Handlers.LoginHandler | server.js:83-108 | 401 iff auth fails. Canned iff both fields strictly equal the catalog's (`undefined` included). Every other pair gets the one generic message. |
| Handlers.ForgotUsernameHandler | server.js:116-148 | A falsy, non-string or `@`-free `emailId` gets the format message before any comparison. Otherwise canned iff it equals the catalog email, else "No account found…". |
| Handlers.ForgotPasswordRequestHandler | server.js:154-186 | Answers exactly as the forgot-username handler, for every entry and request. |
| Handlers.ForgotPasswordValidateHandler | server.js:195-244 | Check order is missing code or reference, then reference mismatch, then exact match (success), then `"000000"` (expired), else "Invalid OTP.". Each message holds iff its condition holds. |
| Handlers.ForgotPasswordResetHandler | server.js:251-296 | Check order is session id (falsy or mismatched), then both passwords present, then passwords equal. Success iff the id matches and the passwords are truthy and equal. |
| Handlers.ValidateUserHandler | server.js:302-350 | Presence of all three fields comes first, then mismatches in the order loan, SSN, ZIP. Canned iff all three are present and equal the catalog values. |
| Handlers.CreateAccountHandler | server.js:357-406 | Registration id first, then both passwords present, then passwords equal. Success iff all three checks pass. |
| Handlers.EmailVerificationHandler | server.js:412-444 | "Email is required…" iff `email` is falsy. Otherwise canned iff it equals the catalog email, else "Verification link is invalid…". |
| Handlers.RegistrationOtpRequestHandler | server.js:450-482 | "Delivery method is required." iff falsy. Otherwise canned iff the lower-cased `String()` form is in {sms, call, sms/call, sms or call}. |
| Handlers.RegistrationOtpValidateHandler | server.js:488-537 | Answers exactly as the forgot-password OTP validator, for every entry and request. |
| Handlers.LegalHandler | server.js:543-565 | Canned iff `acceptTermsAndPrivacy` is the boolean `true`. Any other value gets the terms message. |
| Handlers.RefinanceHandler | server.js:572-623 | `userId` is checked before the contact mode. Canned iff the id matches and the lower-cased mode is in {email, call, email/call, email or call}. |
| Handlers.RefreshHandler | server.js:629-653 | Canned iff `refreshToken` is truthy and equals the catalog's, else the refresh-token message. |
| Handlers.HealthHandler | server.js:659-663 | Never 401 and never a failure. The default payload is returned iff the catalog response is falsy. |
| Policy.HandlersFollowPolicy | server.js:64-663 | Every handler equals the reference: the auth precondition for guarded families, then the family's rule table read top to bottom, first failing row's message. |
| Handlers.Handle | server.js:677-741 | The handler each switch case installs: only guarded families answer 401, only the default handler echoes, only the health handler falls back to its default payload, the default and health handlers never fail, and a canned answer is always the entry's own response. |
| Registry.NormalizeMethod | server.js:667 | A missing or falsy method becomes `get`. A string is lower-cased. A truthy non-string makes the call throw. |
| Registry.FamilyOf | server.js:677-741 | A route selects a special family iff it is that family's route string. Every other route selects the default handler. |
| Registry.Register | server.js:666-744 | Registration fails, naming the first offending route, iff some entry's method throws. Otherwise a binding is produced iff some entry has a supported verb, path `/mock` + route and the family `FamilyOf(route)`. |
| Properties.UnauthorizedExactlyWhenGuarded | server.js:21-29 | For every family, 401 iff the family is guarded (not token, not health) and the header check fails. |
| Properties.AuthFailureIgnoresBody | server.js:36-42 | When the header check fails, a guarded handler answers 401 whatever the body. |
| Properties.TokenIgnoresHeader | server.js:64-76 | The token handler's answer does not depend on the authorization header. |
| Properties.HealthIgnoresRequest | server.js:659-663 | The health handler's answer does not depend on the request at all. |
| Properties.ExtraFieldsIgnored | server.js:369-377 | Requests that agree on the header and on the keys a family reads get the same answer. This covers the unused profile fields of create-account and refinance. |
| Properties.LoginMatchesMissingExpectations | server.js:84-98 | If the catalog's request names neither field, a body without both fields logs in. |
| Properties.LoginNullRequestAdmitsNulls | server.js:84-85 | With catalog `request: null`, a body whose username and password are `null` logs in. |
| Properties.GuardedAndDefaultedGetDiffer | server.js:84 | `x && x.k` and `(x || {}).k` differ exactly for falsy catalog values other than `undefined`. |
| Properties.LoginWrongPairsFailAlike | server.js:98-106 | Every pair with a wrong field, swapped pairs included, gets the same generic message. |
| Properties.LoginExample | server.js:96-99 | The catalog's own pair gets the canned response verbatim, with status 200. |
| Properties.MalformedCatalogEmailUnreachable | server.js:130-146 | If the catalog email is not a non-empty string with `@`, neither email lookup can ever succeed. |
| Properties.OtpReferenceCheckedBeforeCode | server.js:218-224 | A reference mismatch wins over any code, in both OTP validators. |
| Properties.ExpectedZerosCodeSucceeds | server.js:226-236 | An expected code of `"000000"` is accepted when it is sent. |
| Properties.ExpiredCodeExample | server.js:230-236 | Expected `123456` and sent `000000` with the right reference give the expiry message, status 200. |
| Properties.UserFieldsPresenceFirst | server.js:316-322 | A missing ZIP code is reported before any mismatch. |
| Properties.PasswordFlowsSuccessImplies | server.js:270-294 | A successful reset or account creation implies a matching id and two equal, truthy passwords. |
| Properties.ModeMatchingIgnoresCase | server.js:469-471 | Two spellings with the same lower-case form get the same answer from the OTP-request and refinance handlers. |
| Properties.SmsInAnyCase | server.js:469-480 | `SMS`, `Sms` and `sms` are all accepted delivery methods. |
| Properties.AcceptedSetsDiffer | server.js:471 | `email or call` passes the refinance set but not the delivery set. `sms` does the reverse. |
| Properties.NonStringModesUnsupported | server.js:610-612 | A number or boolean, passed through `String()` and lower-cased, is never an accepted delivery method or contact mode. |
| JsValues.Lower | server.js:667 | `toLowerCase` (also at lines 469 and 610) keeps the length and maps each character on its own: ASCII capitals become small letters, every other character is unchanged. A string with no capitals is its own lower-case form (`LowerOfLowerCase`). |
| JsValues.ToJsString | server.js:469 | `String()` (also at line 610) of a number is an optional `-` followed by digits that read back as its magnitude. Booleans give `true` and `false`, and a string is returned unchanged. |
| JsValues.NatToDecimal | server.js:469 | `String()` of a number spells it in decimal digits with no leading zero, and reading those digits back gives the number. |
| Properties.SpecialRoutesRoundTrip | server.js:677-737 | Each special family's route selects that family again. |
| Properties.RegisterConcatenates | server.js:666 | Registration works in catalog order: registering `a + b` gives `a`'s bindings followed by `b`'s. |
| Properties.BindingsUnderBasePath | server.js:668-673 | Every binding has one of the five verbs and the path `/mock` + some entry's route. |
| Properties.MissingMethodBindsGet | server.js:667 | An entry without a method is bound under `get`. |
| Properties.UnsupportedMethodSkipped | server.js:670-673 | An entry with method `OPTIONS` produces no binding. |

## Left out

- Registry.Register assumes the framework accepts every path. The call `app[method](fullPath, handler)` (server.js:743) compiles the path as an Express route pattern and throws at startup for a path that does not compile. For example, with the entry `"/loans(": {"method": "POST"}`, `new RegExp` reports an unterminated group for `/mock/loans(`. The loop aborts and the server never listens. The model answers `Success` for such a catalog.
- Auth.AnyBearerTokenPasses holds for the header value as the handler reads it. Node's HTTP parser trims the value before `hasValidAuth` sees it. A client that sends `Authorization: Bearer ` with a blank token therefore delivers `"Bearer"`, which fails `startsWith('Bearer ')` (server.js:24) and gets a 401 on a route that requires the header. The lemma's `token == ""` case never arises from the wire.
- Catalog.StatusCode covers the modelled outcomes only. `String(v)` at server.js:469 and 610 throws a TypeError for a body object whose `toString` and `valueOf` keys are not functions. `JSON.parse` makes such keys plain data properties, as in `{"deliveryMethod": {"toString": 1}}`, or `[{"toString": 1}]`, which throws inside the array's `join`. Express catches the throw and answers 500, so for such bodies an exception does cross the handler boundary. The model has no object or array values, so it has no such outcome.
- Express bootstrap, CORS and JSON middleware, `app.listen` and the root info route (server.js:1-10, 746-755). These are framework plumbing.
- Reading and parsing the catalog file (server.js:12-13). The catalog is an input value, a sequence of `Entry` in `Object.entries` order. The routes start with `/`, so no key is integer-like and JavaScript's integer-key reordering never applies.
- The `MOCK_DELAY_MS` delay middleware (server.js:15-19). It only delays and does not change any outcome.
- The `console.log` and `console.warn` lines of the registration loop. They are logging only.
- The contents of the health default payload (server.js:661). It reads the clock, so it is the abstract `HealthDefault`.
- The contents of the default handler's echo (server.js:46-55). It copies method, path, body and query from the framework, so it is the abstract `Echo`. For the same reason `Properties.ExtraFieldsIgnored` excludes the default handler.
- JSON serialisation of the envelopes. Only the status (401 or 200) and the message are modelled.
- The framework's routing of an incoming request to a binding. Express matches paths case-insensitively and tolerates a trailing slash. The model stops at the list of bindings.
- Objects and arrays as body or expected values. For these, `===` compares identity, so a parsed body object never equals a catalog object. The exceptions are the `String()` conversions at server.js:469 and 610: they can succeed on an array or throw on an object (see the lines naming `Catalog.StatusCode` and the two lower-casing handlers). The token handler is the exception, since it needs no equality: an object or array `authenticationKey` is truthy and `!== 'invalid'`, so it gets the canned token (server.js:67).
- Numbers outside the safe integers. `JsValues.SafeInt` bounds `Num` by 2^53 - 1 in magnitude. JavaScript numbers are doubles, and `JSON.parse` rounds any larger integer. Two distinct literals can then compare equal under `===`. For example, a catalog `loanNumber` of 9007199254740993 matches a body `loanNumber` of 9007199254740992. This affects every strict comparison on a number (server.js:98, 138, 218, 226, 270, 324, 379, 434, 594, 643). Fractional numbers and `NaN` are also left out.
- Handlers.RegistrationOtpRequestHandler and Handlers.RefinanceHandler: the "canned iff the lower-cased form is accepted" contracts cover scalar values only. These two handlers do not use `===` on the field; they use `String(v).toLowerCase()`, and `String` of an array joins its elements with commas. So a one-element array passes: `{"deliveryMethod": ["SMS"]}` and `{"modeofcontact": ["Email"]}` get the canned response. An object or array whose `String()` throws gets a 500 instead (see the `Catalog.StatusCode` line). `Properties.NonStringModesUnsupported` covers numbers and booleans only.
- JsValues.ToJsString covers safe integers only, which JavaScript writes positionally as well. Larger numbers print as the rounded double (`"12345678901234567000"`) or in exponent notation from 1e21 (`"1e+21"`), and the model has no such numbers. No accepted spelling starts with a digit or a minus sign, so no handler outcome would depend on the difference.
- Non-object catalog entries. A `null` entry makes `def.method` throw at startup.
- `toLowerCase` is modelled on ASCII letters only. No non-ASCII character lower-cases to a string made only of the letters of `get`, `post`, `put`, `patch`, `delete` or the accepted delivery and contact spellings. U+0130, for example, lower-cases to `i` followed by U+0307, and U+0307 stays in the result. Full Unicode case mapping therefore gives the same membership answers.

=== FILE: auth.dfy ===
/** The authorization precondition shared by the guarded handlers. Only the
    presence of the header and its `Bearer ` prefix are checked; the token
    after the prefix is never looked at. */
module Auth {
  import opened JsValues
  import opened Catalog

  const BearerPrefix := "Bearer "

  /** `def.headers && def.headers.Authorization` is truthy. */
  predicate AuthRequired(def: Def) {
    Truthy(GuardedGet(def.headers, "Authorization"))
  }

  /** The request carries an authorization header starting with `Bearer `. */
  predicate HasBearerPrefix(q: Request) {
    q.authorization.Some? && StartsWith(q.authorization.value, BearerPrefix)
  }

  /** `hasValidAuth(def, req)`. */
  function HasValidAuth(def: Def, q: Request): (ok: bool)
    ensures !ok <==>
      def.headers.Object? && Truthy(Get(def.headers.fields, "Authorization")) && !HasBearerPrefix(q)
  {
    if AuthRequired(def) then
      match q.authorization
      case None => false
      case Some(auth) => auth != "" && StartsWith(auth, BearerPrefix)
    else
      true
  }

  /** Any token after the `Bearer ` prefix passes, whatever the catalog says. */
  lemma AnyBearerTokenPasses(def: Def, token: string, body: map<string, JsValue>)
    ensures HasValidAuth(def, Request(Some(BearerPrefix + token), body))
  {
  }

  /** The outcome of the check depends on the header only through its prefix. */
  lemma OnlyPrefixMatters(def: Def, q1: Request, q2: Request)
    requires HasBearerPrefix(q1) <==> HasBearerPrefix(q2)
    ensures HasValidAuth(def, q1) == HasValidAuth(def, q2)
  {
  }

  /** The prefix is case-sensitive: a lower-case `bearer` is refused when the
      catalog requires the header. */
  lemma LowerCaseBearerRefused(def: Def, token: string, body: map<string, JsValue>)
    requires AuthRequired(def)
    ensures !HasValidAuth(def, Request(Some("bearer " + token), body))
  {
  }
}

=== FILE: catalog.dfy ===
/** The endpoint catalog entry, the part of an HTTP request a handler reads,
    and the outcomes a handler can produce. */
module Catalog {
  import opened JsValues

  datatype Option<T> = None | Some(value: T)

  /** One catalog entry: `method` (as httpMethod), `headers`, `request` (expected values) and
      `response` (the canned payload, carried without being inspected). */
  datatype Def = Def(httpMethod: JsValue, headers: Shape, request: Shape, response: Shape)

  /** An incoming request: the `authorization` header value as the handler
      reads it, if one was sent (Node's parser has already trimmed leading and
      trailing whitespace), and the body after `req.body || {}`, as its own keys. */
  datatype Request = Request(authorization: Option<string>, body: map<string, JsValue>)

  /** A body field as destructuring reads it: absent keys are `undefined`. */
  function BodyField(q: Request, key: string): JsValue {
    Get(q.body, key)
  }

  /** What a handler answers.
      - Unauthorized: the 401 envelope with UnauthorizedMessage;
      - Fail: a 200 failure envelope `{status: false, message, data: null}`;
      - Canned: the catalog's `response`, verbatim;
      - Echo: the default handler's `Mock endpoint reached` envelope;
      - HealthDefault: the health handler's `{status: 'ok', time}` payload. */
  datatype Outcome = Unauthorized | Fail(message: string) | Canned(payload: Shape) | Echo | HealthDefault

  /** HTTP status of an outcome: only the authorization failure is not a 200. */
  function StatusCode(o: Outcome): (code: int)
    ensures code == 401 <==> o.Unauthorized?
    ensures code != 401 ==> code == 200
  {
    match o
    case Unauthorized => 401
    case _ => 200
  }

  const UnauthorizedMessage := "Missing or invalid Authorization header"
  const InvalidAuthenticationKey := "Invalid authentication key."
  const InvalidCredentials := "Invalid username or password."
  const InvalidEmail := "Please enter a valid email address."
  const NoAccount := "No account found for the entered email."
  const OtpRequired := "OTP and reference id are required."
  const OtpSessionInvalid := "Invalid or expired OTP session."
  const OtpExpired := "OTP has expired. Please request a new one."
  const OtpInvalid := "Invalid OTP."
  const ResetSessionInvalid := "Invalid or expired reset session."
  const NewPasswordsRequired := "New Password and Confirm Password are required."
  const PasswordsMismatch := "Password and Confirm Password should match."
  const UserFieldsRequired := "Loan number, SSN last 4, and ZIP code are required."
  const LoanNotFound := "Loan number not found."
  const SsnMismatch := "SSN does not match our records."
  const ZipMismatch := "ZIP code does not match our records."
  const RegistrationSessionInvalid := "Invalid or expired registration session."
  const PasswordsRequired := "Password and Confirm Password are required."
  const EmailRequired := "Email is required for verification."
  const VerificationLinkInvalid := "Verification link is invalid or expired."
  const DeliveryMethodRequired := "Delivery method is required."
  const DeliveryMethodUnsupported := "Unsupported delivery method. Please choose SMS or Call."
  const TermsNotAccepted := "You must accept Terms and Privacy Policy to continue."
  const RefinanceUserInvalid := "User is not eligible for refinance or invalid user."
  const ContactModeRequired := "Preferred mode of contact is required."
  const ContactModeUnsupported := "Preferred mode of contact is not supported."
  const RefreshTokenInvalid := "Invalid or expired refresh token."

  /** The literal an OTP validator treats as an expired code. */
  const ExpiredOtp := "000000"

  /** Lower-cased delivery methods the registration OTP request accepts. */
  const DeliveryMethods: set<string> := {"sms", "call", "sms/call", "sms or call"}

  /** Lower-cased contact modes the refinance request accepts. */
  const ContactModes: set<string> := {"email", "call", "email/call", "email or call"}
}

=== FILE: handlers.dfy ===
/** The route handlers. Each factory of the server closes over one catalog
    entry; here each is a pure function of that entry and the request. The
    guarded handlers answer Unauthorized before they read the body. */
module Handlers {
  import opened JsValues
  import opened Catalog
  import opened Auth

  /** Body field `key` is present in the JavaScript sense (truthy). */
  predicate Present(q: Request, key: string) {
    Truthy(BodyField(q, key))
  }

  /** `emailId` passes the format check: a non-empty string containing `@`. */
  predicate EmailShaped(v: JsValue) {
    Truthy(v) && v.Str? && '@' in v.s
  }

  /** `String(v).toLowerCase()` belongs to `accepted`. */
  predicate LowerIn(v: JsValue, accepted: set<string>) {
    Lower(ToJsString(v)) in accepted
  }

  /** `buildHandler`: the default handler. */
  function BuildHandler(def: Def, q: Request): (r: Outcome)
    ensures r == Unauthorized <==> !HasValidAuth(def, q)
    ensures r == Canned(def.response) <==> HasValidAuth(def, q) && ShapeTruthy(def.response)
    ensures r == Echo <==> HasValidAuth(def, q) && !ShapeTruthy(def.response)
  {
    if !HasValidAuth(def, q) then Unauthorized
    else if ShapeTruthy(def.response) then Canned(def.response)
    else Echo
  }

  /** `tokenHandler`: issues the canned token unless the key is falsy or
      `'invalid'`. It never checks the authorization header. */
  function TokenHandler(def: Def, q: Request): (r: Outcome)
    ensures r == Canned(def.response) <==>
      Present(q, "authenticationKey") && BodyField(q, "authenticationKey") != Str("invalid")
    ensures r != Canned(def.response) ==> r == Fail(InvalidAuthenticationKey)
  {
    var key := BodyField(q, "authenticationKey");
    if !Truthy(key) || key == Str("invalid") then Fail(InvalidAuthenticationKey)
    else Canned(def.response)
  }

  /** `loginHandler`: only the catalog's exact username/password pair logs in;
      every other pair gets the same message. */
  function LoginHandler(def: Def, q: Request): (r: Outcome)
    ensures r == Unauthorized <==> !HasValidAuth(def, q)
    ensures r == Canned(def.response) <==>
      && HasValidAuth(def, q)
      && BodyField(q, "username") == GuardedGet(def.request, "username")
      && BodyField(q, "password") == GuardedGet(def.request, "password")
    ensures r != Unauthorized && r != Canned(def.response) ==> r == Fail(InvalidCredentials)
  {
    var validUsername := GuardedGet(def.request, "username");
    var validPassword := GuardedGet(def.request, "password");
    if !HasValidAuth(def, q) then Unauthorized
    else if BodyField(q, "username") == validUsername && BodyField(q, "password") == validPassword then
      Canned(def.response)
    else
      Fail(InvalidCredentials)
  }

  /** `forgotUsernameHandler`: format check on `emailId`, then a lookup of the
      one known email. */
  function ForgotUsernameHandler(def: Def, q: Request): (r: Outcome)
    ensures r == Unauthorized <==> !HasValidAuth(def, q)
    ensures r == Fail(InvalidEmail) <==> HasValidAuth(def, q) && !EmailShaped(BodyField(q, "emailId"))
    ensures r == Fail(NoAccount) <==>
      && HasValidAuth(def, q)
      && EmailShaped(BodyField(q, "emailId"))
      && BodyField(q, "emailId") != GuardedGet(def.request, "emailId")
    ensures r == Canned(def.response) <==>
      && HasValidAuth(def, q)
      && EmailShaped(BodyField(q, "emailId"))
      && BodyField(q, "emailId") == GuardedGet(def.request, "emailId")
  {
    var expectedEmail := GuardedGet(def.request, "emailId");
    var emailId := BodyField(q, "emailId");
    if !HasValidAuth(def, q) then Unauthorized
    else if !Truthy(emailId) || !emailId.Str? || '@' !in emailId.s then Fail(InvalidEmail)
    else if emailId != expectedEmail then Fail(NoAccount)
    else Canned(def.response)
  }

  /** `forgotPasswordRequestHandler`: a separate copy of the forgot-username
      logic, and it answers exactly as that handler does. */
  function ForgotPasswordRequestHandler(def: Def, q: Request): (r: Outcome)
    ensures r == ForgotUsernameHandler(def, q)
  {
    var expectedEmail := GuardedGet(def.request, "emailId");
    var emailId := BodyField(q, "emailId");
    if !HasValidAuth(def, q) then Unauthorized
    else if !Truthy(emailId) || !emailId.Str? || '@' !in emailId.s then Fail(InvalidEmail)
    else if emailId != expectedEmail then Fail(NoAccount)
    else Canned(def.response)
  }

  /** `forgotPasswordValidateHandler`: presence, then the reference id, then
      the code itself; an exact match wins over the expiry literal. */
  function ForgotPasswordValidateHandler(def: Def, q: Request): (r: Outcome)
    ensures r == Unauthorized <==> !HasValidAuth(def, q)
    ensures r == Fail(OtpRequired) <==>
      HasValidAuth(def, q) && !(Present(q, "otp") && Present(q, "otpReferenceId"))
    ensures r == Fail(OtpSessionInvalid) <==>
      && HasValidAuth(def, q) && Present(q, "otp") && Present(q, "otpReferenceId")
      && BodyField(q, "otpReferenceId") != GuardedGet(def.request, "otpReferenceId")
    ensures r == Canned(def.response) <==>
      && HasValidAuth(def, q) && Present(q, "otp") && Present(q, "otpReferenceId")
      && BodyField(q, "otpReferenceId") == GuardedGet(def.request, "otpReferenceId")
      && BodyField(q, "otp") == GuardedGet(def.request, "otp")
    ensures r == Fail(OtpExpired) <==>
      && HasValidAuth(def, q) && Present(q, "otpReferenceId")
      && BodyField(q, "otpReferenceId") == GuardedGet(def.request, "otpReferenceId")
      && BodyField(q, "otp") != GuardedGet(def.request, "otp")
      && BodyField(q, "otp") == Str(ExpiredOtp)
    ensures r == Fail(OtpInvalid) <==>
      && HasValidAuth(def, q) && Present(q, "otp") && Present(q, "otpReferenceId")
      && BodyField(q, "otpReferenceId") == GuardedGet(def.request, "otpReferenceId")
      && BodyField(q, "otp") != GuardedGet(def.request, "otp")
      && BodyField(q, "otp") != Str(ExpiredOtp)
  {
    var expectedOtp := GuardedGet(def.request, "otp");
    var expectedRef := GuardedGet(def.request, "otpReferenceId");
    var otp := BodyField(q, "otp");
    var otpReferenceId := BodyField(q, "otpReferenceId");
    if !HasValidAuth(def, q) then Unauthorized
    else if !Truthy(otp) || !Truthy(otpReferenceId) then Fail(OtpRequired)
    else if otpReferenceId != expectedRef then Fail(OtpSessionInvalid)
    else if otp == expectedOtp then Canned(def.response)
    else if otp == Str(ExpiredOtp) then Fail(OtpExpired)
    else Fail(OtpInvalid)
  }

  /** `forgotPasswordResetHandler`: session id, then both passwords present,
      then the two passwords equal. */
  function ForgotPasswordResetHandler(def: Def, q: Request): (r: Outcome)
    ensures r == Unauthorized <==> !HasValidAuth(def, q)
    ensures r == Fail(ResetSessionInvalid) <==>
      && HasValidAuth(def, q)
      && !(Present(q, "validation-request-id")
           && BodyField(q, "validation-request-id") == GuardedGet(def.request, "validation-request-id"))
    ensures r == Canned(def.response) <==>
      && HasValidAuth(def, q)
      && Present(q, "validation-request-id")
      && BodyField(q, "validation-request-id") == GuardedGet(def.request, "validation-request-id")
      && Present(q, "newPassword")
      && BodyField(q, "newPassword") == BodyField(q, "confirmPassword")
    ensures r != Unauthorized && r != Canned(def.response) && r != Fail(ResetSessionInvalid) ==>
      r == (if Present(q, "newPassword") && Present(q, "confirmPassword")
            then Fail(PasswordsMismatch) else Fail(NewPasswordsRequired))
  {
    var expectedValidationId := GuardedGet(def.request, "validation-request-id");
    var validationId := BodyField(q, "validation-request-id");
    var newPassword := BodyField(q, "newPassword");
    var confirmPassword := BodyField(q, "confirmPassword");
    if !HasValidAuth(def, q) then Unauthorized
    else if !Truthy(validationId) || validationId != expectedValidationId then Fail(ResetSessionInvalid)
    else if !Truthy(newPassword) || !Truthy(confirmPassword) then Fail(NewPasswordsRequired)
    else if newPassword != confirmPassword then Fail(PasswordsMismatch)
    else Canned(def.response)
  }

  /** `validateUserHandler`: all three fields present, then each compared in
      the order loan number, SSN, ZIP code. */
  function ValidateUserHandler(def: Def, q: Request): (r: Outcome)
    ensures r == Unauthorized <==> !HasValidAuth(def, q)
    ensures r == Fail(UserFieldsRequired) <==>
      HasValidAuth(def, q) && !(Present(q, "loanNumber") && Present(q, "ssnLast4") && Present(q, "zipCode"))
    ensures r == Canned(def.response) <==>
      && HasValidAuth(def, q)
      && Present(q, "loanNumber") && Present(q, "ssnLast4") && Present(q, "zipCode")
      && BodyField(q, "loanNumber") == DefaultedGet(def.request, "loanNumber")
      && BodyField(q, "ssnLast4") == DefaultedGet(def.request, "ssnLast4")
      && BodyField(q, "zipCode") == DefaultedGet(def.request, "zipCode")
    ensures r == Fail(LoanNotFound) ==> BodyField(q, "loanNumber") != DefaultedGet(def.request, "loanNumber")
    ensures r == Fail(SsnMismatch) ==>
      && BodyField(q, "loanNumber") == DefaultedGet(def.request, "loanNumber")
      && BodyField(q, "ssnLast4") != DefaultedGet(def.request, "ssnLast4")
    ensures r == Fail(ZipMismatch) ==>
      && BodyField(q, "loanNumber") == DefaultedGet(def.request, "loanNumber")
      && BodyField(q, "ssnLast4") == DefaultedGet(def.request, "ssnLast4")
      && BodyField(q, "zipCode") != DefaultedGet(def.request, "zipCode")
    ensures r.Fail? ==> r.message in {UserFieldsRequired, LoanNotFound, SsnMismatch, ZipMismatch}
    ensures !r.Echo? && !r.HealthDefault? && (r.Canned? ==> r.payload == def.response)
  {
    var loanNumber := BodyField(q, "loanNumber");
    var ssnLast4 := BodyField(q, "ssnLast4");
    var zipCode := BodyField(q, "zipCode");
    if !HasValidAuth(def, q) then Unauthorized
    else if !Truthy(loanNumber) || !Truthy(ssnLast4) || !Truthy(zipCode) then Fail(UserFieldsRequired)
    else if loanNumber != DefaultedGet(def.request, "loanNumber") then Fail(LoanNotFound)
    else if ssnLast4 != DefaultedGet(def.request, "ssnLast4") then Fail(SsnMismatch)
    else if zipCode != DefaultedGet(def.request, "zipCode") then Fail(ZipMismatch)
    else Canned(def.response)
  }

  /** `createAccountHandler`: registration id, then both passwords present,
      then the two passwords equal. The profile fields are read but unused. */
  function CreateAccountHandler(def: Def, q: Request): (r: Outcome)
    ensures r == Unauthorized <==> !HasValidAuth(def, q)
    ensures r == Fail(RegistrationSessionInvalid) <==>
      && HasValidAuth(def, q)
      && !(Present(q, "registrationid")
           && BodyField(q, "registrationid") == DefaultedGet(def.request, "registrationid"))
    ensures r == Canned(def.response) <==>
      && HasValidAuth(def, q)
      && Present(q, "registrationid")
      && BodyField(q, "registrationid") == DefaultedGet(def.request, "registrationid")
      && Present(q, "password")
      && BodyField(q, "password") == BodyField(q, "confirmPassword")
    ensures r != Unauthorized && r != Canned(def.response) && r != Fail(RegistrationSessionInvalid) ==>
      r == (if Present(q, "password") && Present(q, "confirmPassword")
            then Fail(PasswordsMismatch) else Fail(PasswordsRequired))
  {
    var registrationid := BodyField(q, "registrationid");
    var password := BodyField(q, "password");
    var confirmPassword := BodyField(q, "confirmPassword");
    if !HasValidAuth(def, q) then Unauthorized
    else if !Truthy(registrationid) || registrationid != DefaultedGet(def.request, "registrationid") then
      Fail(RegistrationSessionInvalid)
    else if !Truthy(password) || !Truthy(confirmPassword) then Fail(PasswordsRequired)
    else if password != confirmPassword then Fail(PasswordsMismatch)
    else Canned(def.response)
  }

  /** `emailVerificationHandler`: `email` present, then equal to the catalog's. */
  function EmailVerificationHandler(def: Def, q: Request): (r: Outcome)
    ensures r == Unauthorized <==> !HasValidAuth(def, q)
    ensures r == Fail(EmailRequired) <==> HasValidAuth(def, q) && !Present(q, "email")
    ensures r == Canned(def.response) <==>
      HasValidAuth(def, q) && Present(q, "email") && BodyField(q, "email") == DefaultedGet(def.request, "email")
    ensures r == Fail(VerificationLinkInvalid) <==>
      HasValidAuth(def, q) && Present(q, "email") && BodyField(q, "email") != DefaultedGet(def.request, "email")
  {
    var email := BodyField(q, "email");
    if !HasValidAuth(def, q) then Unauthorized
    else if !Truthy(email) then Fail(EmailRequired)
    else if email != DefaultedGet(def.request, "email") then Fail(VerificationLinkInvalid)
    else Canned(def.response)
  }

  /** `registrationOtpRequestHandler`: `deliveryMethod` present, then one of
      the delivery methods, ignoring case. */
  function RegistrationOtpRequestHandler(def: Def, q: Request): (r: Outcome)
    ensures r == Unauthorized <==> !HasValidAuth(def, q)
    ensures r == Fail(DeliveryMethodRequired) <==> HasValidAuth(def, q) && !Present(q, "deliveryMethod")
    ensures r == Canned(def.response) <==>
      HasValidAuth(def, q) && Present(q, "deliveryMethod") && LowerIn(BodyField(q, "deliveryMethod"), DeliveryMethods)
    ensures r == Fail(DeliveryMethodUnsupported) <==>
      HasValidAuth(def, q) && Present(q, "deliveryMethod") && !LowerIn(BodyField(q, "deliveryMethod"), DeliveryMethods)
  {
    var deliveryMethod := BodyField(q, "deliveryMethod");
    if !HasValidAuth(def, q) then Unauthorized
    else if !Truthy(deliveryMethod) then Fail(DeliveryMethodRequired)
    else if Lower(ToJsString(deliveryMethod)) !in DeliveryMethods then Fail(DeliveryMethodUnsupported)
    else Canned(def.response)
  }

  /** `registrationOtpValidateHandler`: a separate copy of the forgot-password
      OTP validation, and it answers exactly as that handler does. */
  function RegistrationOtpValidateHandler(def: Def, q: Request): (r: Outcome)
    ensures r == ForgotPasswordValidateHandler(def, q)
  {
    var expectedOtp := GuardedGet(def.request, "otp");
    var expectedRef := GuardedGet(def.request, "otpReferenceId");
    var otp := BodyField(q, "otp");
    var otpReferenceId := BodyField(q, "otpReferenceId");
    if !HasValidAuth(def, q) then Unauthorized
    else if !Truthy(otp) || !Truthy(otpReferenceId) then Fail(OtpRequired)
    else if otpReferenceId != expectedRef then Fail(OtpSessionInvalid)
    else if otp == expectedOtp then Canned(def.response)
    else if otp == Str(ExpiredOtp) then Fail(OtpExpired)
    else Fail(OtpInvalid)
  }

  /** `legalHandler`: only the boolean `true` accepts the terms. */
  function LegalHandler(def: Def, q: Request): (r: Outcome)
    ensures r == Unauthorized <==> !HasValidAuth(def, q)
    ensures r == Canned(def.response) <==> HasValidAuth(def, q) && BodyField(q, "acceptTermsAndPrivacy") == Bool(true)
    ensures r != Unauthorized && r != Canned(def.response) ==> r == Fail(TermsNotAccepted)
  {
    if !HasValidAuth(def, q) then Unauthorized
    else if BodyField(q, "acceptTermsAndPrivacy") != Bool(true) then Fail(TermsNotAccepted)
    else Canned(def.response)
  }

  /** `refinanceHandler`: user id first, then the contact mode present and
      one of the contact modes, ignoring case. */
  function RefinanceHandler(def: Def, q: Request): (r: Outcome)
    ensures r == Unauthorized <==> !HasValidAuth(def, q)
    ensures r == Fail(RefinanceUserInvalid) <==>
      HasValidAuth(def, q) && !(Present(q, "userId") && BodyField(q, "userId") == DefaultedGet(def.request, "userId"))
    ensures r == Canned(def.response) <==>
      && HasValidAuth(def, q)
      && Present(q, "userId") && BodyField(q, "userId") == DefaultedGet(def.request, "userId")
      && Present(q, "modeofcontact") && LowerIn(BodyField(q, "modeofcontact"), ContactModes)
    ensures r == Fail(ContactModeRequired) ==> !Present(q, "modeofcontact")
    ensures r == Fail(ContactModeUnsupported) ==>
      Present(q, "modeofcontact") && !LowerIn(BodyField(q, "modeofcontact"), ContactModes)
    ensures r.Fail? ==> r.message in {RefinanceUserInvalid, ContactModeRequired, ContactModeUnsupported}
    ensures !r.Echo? && !r.HealthDefault? && (r.Canned? ==> r.payload == def.response)
  {
    var userId := BodyField(q, "userId");
    var modeofcontact := BodyField(q, "modeofcontact");
    if !HasValidAuth(def, q) then Unauthorized
    else if !Truthy(userId) || userId != DefaultedGet(def.request, "userId") then Fail(RefinanceUserInvalid)
    else if !Truthy(modeofcontact) then Fail(ContactModeRequired)
    else if Lower(ToJsString(modeofcontact)) !in ContactModes then Fail(ContactModeUnsupported)
    else Canned(def.response)
  }

  /** `refreshHandler`: the refresh token present and equal to the catalog's. */
  function RefreshHandler(def: Def, q: Request): (r: Outcome)
    ensures r == Unauthorized <==> !HasValidAuth(def, q)
    ensures r == Canned(def.response) <==>
      && HasValidAuth(def, q) && Present(q, "refreshToken")
      && BodyField(q, "refreshToken") == DefaultedGet(def.request, "refreshToken")
    ensures r != Unauthorized && r != Canned(def.response) ==> r == Fail(RefreshTokenInvalid)
  {
    var refreshToken := BodyField(q, "refreshToken");
    if !HasValidAuth(def, q) then Unauthorized
    else if !Truthy(refreshToken) || refreshToken != DefaultedGet(def.request, "refreshToken") then
      Fail(RefreshTokenInvalid)
    else Canned(def.response)
  }

  /** `healthHandler`: never checks authorization and never fails. */
  function HealthHandler(def: Def, q: Request): (r: Outcome)
    ensures r != Unauthorized && !r.Fail? && !r.Echo?
    ensures r == HealthDefault <==> !ShapeTruthy(def.response)
    ensures r.Canned? ==> r.payload == def.response
  {
    if ShapeTruthy(def.response) then Canned(def.response) else HealthDefault
  }

  /** The handler families the registration switch chooses between. */
  datatype Family =
    | Token | Login | ForgotUsername | ForgotPasswordRequest | ForgotPasswordValidate
    | ForgotPasswordReset | ValidateUser | CreateAccount | EmailVerification
    | RegistrationOtpRequest | RegistrationOtpValidate | Legal | Refinance | Refresh
    | Health | Default

  /** Families that run the authorization precondition. */
  predicate Guarded(f: Family) {
    f != Token && f != Health
  }

  /** The handler bound for family `f` over entry `def`, applied to request `q`.
      Only guarded families answer 401, only the default handler echoes,
      only the health handler falls back to its default payload, and a
      canned answer is always the entry's own response. */
  function Handle(f: Family, def: Def, q: Request): (r: Outcome)
    ensures r == Unauthorized <==> Guarded(f) && !HasValidAuth(def, q)
    ensures r.Echo? <==> f == Default && HasValidAuth(def, q) && !ShapeTruthy(def.response)
    ensures r == HealthDefault <==> f == Health && !ShapeTruthy(def.response)
    ensures r.Fail? ==> f != Default && f != Health
    ensures r.Canned? ==> r.payload == def.response
  {
    match f
    case Token => TokenHandler(def, q)
    case Login => LoginHandler(def, q)
    case ForgotUsername => ForgotUsernameHandler(def, q)
    case ForgotPasswordRequest => ForgotPasswordRequestHandler(def, q)
    case ForgotPasswordValidate => ForgotPasswordValidateHandler(def, q)
    case ForgotPasswordReset => ForgotPasswordResetHandler(def, q)
    case ValidateUser => ValidateUserHandler(def, q)
    case CreateAccount => CreateAccountHandler(def, q)
    case EmailVerification => EmailVerificationHandler(def, q)
    case RegistrationOtpRequest => RegistrationOtpRequestHandler(def, q)
    case RegistrationOtpValidate => RegistrationOtpValidateHandler(def, q)
    case Legal => LegalHandler(def, q)
    case Refinance => RefinanceHandler(def, q)
    case Refresh => RefreshHandler(def, q)
    case Health => HealthHandler(def, q)
    case Default => BuildHandler(def, q)
  }
}

=== FILE: js_values.dfy ===
/** JavaScript values as the server sees them after JSON parsing, and the few
    JavaScript operations its validators apply to them: truthiness, strict
    equality, `String(v)`, `toLowerCase`, `startsWith` and `includes`. */
module JsValues {

  /** The integers a JavaScript number holds exactly: beyond 2^53 - 1 in
      magnitude, `JSON.parse` rounds, and distinct literals can compare equal. */
  type SafeInt = n: int | -0x1F_FFFF_FFFF_FFFF <= n <= 0x1F_FFFF_FFFF_FFFF

  /** A scalar JavaScript value. `undefined` stands for a key that is absent.
      Strict equality `===` on these values is datatype equality. */
  datatype JsValue = Undef | Null | Bool(b: bool) | Num(n: SafeInt) | Str(s: string)

  /** JavaScript truthiness: `undefined`, `null`, `false`, `0` and `""` are falsy. */
  predicate Truthy(v: JsValue) {
    match v
    case Undef => false
    case Null => false
    case Bool(b) => b
    case Num(n) => n != 0
    case Str(s) => s != ""
  }

  /** A value read with property access: a plain object with its own keys,
      or any other (scalar) value, whose properties are all `undefined`. */
  datatype Shape = Object(fields: map<string, JsValue>) | Scalar(v: JsValue)

  /** Truthiness of a shape: every object is truthy. */
  predicate ShapeTruthy(x: Shape) {
    x.Object? || Truthy(x.v)
  }

  /** Property read on an object: an absent key reads as `undefined`. */
  function Get(m: map<string, JsValue>, key: string): JsValue {
    if key in m then m[key] else Undef
  }

  /** `x && x[key]`: a falsy `x` is returned itself. */
  function GuardedGet(x: Shape, key: string): JsValue {
    match x
    case Object(m) => Get(m, key)
    case Scalar(v) => if Truthy(v) then Undef else v
  }

  /** `(x || {})[key]`: a falsy `x` is replaced by an empty object. */
  function DefaultedGet(x: Shape, key: string): JsValue {
    match x
    case Object(m) => Get(m, key)
    case Scalar(_) => Undef
  }

  /** `s.startsWith(p)` */
  predicate StartsWith(s: string, p: string) {
    |p| <= |s| && s[..|p|] == p
  }

  /** `toLowerCase` on one ASCII character; every other character is left as it is. */
  function LowerChar(c: char): char {
    if 'A' <= c <= 'Z' then (c as int + 32) as char else c
  }

  /** `toLowerCase`, character by character. */
  function Lower(s: string): (r: string)
    ensures |r| == |s|
    ensures forall i :: 0 <= i < |s| ==> r[i] == LowerChar(s[i])
  {
    if s == [] then [] else [LowerChar(s[0])] + Lower(s[1..])
  }

  function DigitChar(d: nat): (c: char)
    requires d < 10
    ensures '0' <= c <= '9'
  {
    ('0' as int + d) as char
  }

  /** Every character of `s` is a decimal digit. */
  predicate AllDigits(s: string) {
    forall i :: 0 <= i < |s| ==> '0' <= s[i] <= '9'
  }

  /** The number a string of decimal digits denotes, most significant first. */
  function DecimalValue(s: string): nat
    requires AllDigits(s)
  {
    if s == [] then 0
    else DecimalValue(s[..|s| - 1]) * 10 + (s[|s| - 1] as int - '0' as int)
  }

  /** Decimal notation of a natural number, most significant digit first:
      digits only, no leading zero, and spelling `n` back. */
  function NatToDecimal(n: nat): (r: string)
    ensures |r| >= 1
    ensures AllDigits(r)
    ensures r[0] == '0' ==> n == 0
    ensures DecimalValue(r) == n
  {
    if n < 10 then [DigitChar(n)]
    else
      var init := NatToDecimal(n / 10);
      var r := init + [DigitChar(n % 10)];
      assert r[..|r| - 1] == init;
      r
  }

  /** `String(v)`. A safe integer is written positionally, as JavaScript does:
      an optional minus sign, then the decimal digits of its magnitude. */
  function ToJsString(v: JsValue): (r: string)
    ensures v.Num? && v.n >= 0 ==> AllDigits(r) && |r| >= 1 && DecimalValue(r) == v.n
    ensures v.Num? && v.n < 0 ==>
      |r| >= 2 && r[0] == '-' && AllDigits(r[1..]) && DecimalValue(r[1..]) == -v.n
    ensures v.Bool? ==> r == (if v.b then "true" else "false")
    ensures v.Str? ==> r == v.s
  {
    match v
    case Undef => "undefined"
    case Null => "null"
    case Bool(b) => if b then "true" else "false"
    case Num(n) => if n < 0 then "-" + NatToDecimal(-n) else NatToDecimal(n)
    case Str(s) => s
  }

  /** A string without upper-case ASCII letters is its own lower-case form. */
  lemma LowerOfLowerCase(s: string)
    requires forall i :: 0 <= i < |s| ==> !('A' <= s[i] <= 'Z')
    ensures Lower(s) == s
  {
  }
}

=== FILE: policy.dfy ===
/** A reference description of the validators as data: for each family, an
    ordered table of (condition, failure message) rows, read top to bottom;
    the first row whose condition fails decides the message, and a request
    that passes every row gets the family's success outcome. The lemma
    HandlersFollowPolicy proves the handlers' nested conditionals answer
    exactly as these tables say. */
module Policy {
  import opened JsValues
  import opened Catalog
  import opened Auth
  import opened Handlers

  /** One row of a validation table. */
  datatype Rule = Rule(holds: bool, message: string)

  /** Index of the first row that fails, if any. */
  function FirstFailing(rules: seq<Rule>): (r: Option<nat>)
    ensures r.None? <==> forall i :: 0 <= i < |rules| ==> rules[i].holds
    ensures r.Some? ==> r.value < |rules| && !rules[r.value].holds
    ensures r.Some? ==> forall i :: 0 <= i < r.value ==> rules[i].holds
  {
    if rules == [] then None
    else if !rules[0].holds then Some(0)
    else
      match FirstFailing(rules[1..])
      case None => None
      case Some(k) => Some(k + 1)
  }

  /** The answer a table gives: the first failing row's message, or `success`. */
  function Verdict(rules: seq<Rule>, success: Outcome): (r: Outcome)
    ensures (forall i :: 0 <= i < |rules| ==> rules[i].holds) ==> r == success
    ensures (exists i :: 0 <= i < |rules| && !rules[i].holds) ==>
      exists i :: 0 <= i < |rules| && !rules[i].holds && (forall j :: 0 <= j < i ==> rules[j].holds)
                  && r == Fail(rules[i].message)
  {
    match FirstFailing(rules)
    case None => success
    case Some(i) => Fail(rules[i].message)
  }

  /** Body field `key` of `q` strictly equals `v`. */
  predicate Is(q: Request, key: string, v: JsValue) {
    BodyField(q, key) == v
  }

  /** The validation table of each family, in the order the server checks. */
  function Rules(f: Family, def: Def, q: Request): seq<Rule> {
    match f
    case Token => [
      Rule(Present(q, "authenticationKey") && !Is(q, "authenticationKey", Str("invalid")), InvalidAuthenticationKey)]
    case Login => [
      Rule(Is(q, "username", GuardedGet(def.request, "username"))
           && Is(q, "password", GuardedGet(def.request, "password")), InvalidCredentials)]
    case ForgotUsername => EmailRules(def, q)
    case ForgotPasswordRequest => EmailRules(def, q)
    case ForgotPasswordValidate => OtpRules(def, q)
    case RegistrationOtpValidate => OtpRules(def, q)
    case ForgotPasswordReset => [
      Rule(Present(q, "validation-request-id")
           && Is(q, "validation-request-id", GuardedGet(def.request, "validation-request-id")), ResetSessionInvalid),
      Rule(Present(q, "newPassword") && Present(q, "confirmPassword"), NewPasswordsRequired),
      Rule(BodyField(q, "newPassword") == BodyField(q, "confirmPassword"), PasswordsMismatch)]
    case ValidateUser => [
      Rule(Present(q, "loanNumber") && Present(q, "ssnLast4") && Present(q, "zipCode"), UserFieldsRequired),
      Rule(Is(q, "loanNumber", DefaultedGet(def.request, "loanNumber")), LoanNotFound),
      Rule(Is(q, "ssnLast4", DefaultedGet(def.request, "ssnLast4")), SsnMismatch),
      Rule(Is(q, "zipCode", DefaultedGet(def.request, "zipCode")), ZipMismatch)]
    case CreateAccount => [
      Rule(Present(q, "registrationid")
           && Is(q, "registrationid", DefaultedGet(def.request, "registrationid")), RegistrationSessionInvalid),
      Rule(Present(q, "password") && Present(q, "confirmPassword"), PasswordsRequired),
      Rule(BodyField(q, "password") == BodyField(q, "confirmPassword"), PasswordsMismatch)]
    case EmailVerification => [
      Rule(Present(q, "email"), EmailRequired),
      Rule(Is(q, "email", DefaultedGet(def.request, "email")), VerificationLinkInvalid)]
    case RegistrationOtpRequest => [
      Rule(Present(q, "deliveryMethod"), DeliveryMethodRequired),
      Rule(LowerIn(BodyField(q, "deliveryMethod"), DeliveryMethods), DeliveryMethodUnsupported)]
    case Legal => [
      Rule(Is(q, "acceptTermsAndPrivacy", Bool(true)), TermsNotAccepted)]
    case Refinance => [
      Rule(Present(q, "userId") && Is(q, "userId", DefaultedGet(def.request, "userId")), RefinanceUserInvalid),
      Rule(Present(q, "modeofcontact"), ContactModeRequired),
      Rule(LowerIn(BodyField(q, "modeofcontact"), ContactModes), ContactModeUnsupported)]
    case Refresh => [
      Rule(Present(q, "refreshToken")
           && Is(q, "refreshToken", DefaultedGet(def.request, "refreshToken")), RefreshTokenInvalid)]
    case Health => []
    case Default => []
  }

  function EmailRules(def: Def, q: Request): seq<Rule> {
    [Rule(EmailShaped(BodyField(q, "emailId")), InvalidEmail),
     Rule(Is(q, "emailId", GuardedGet(def.request, "emailId")), NoAccount)]
  }

  /** An exact match of the code passes the expiry row, so an expected code
      of `000000` is accepted. */
  function OtpRules(def: Def, q: Request): seq<Rule> {
    var exact := Is(q, "otp", GuardedGet(def.request, "otp"));
    [Rule(Present(q, "otp") && Present(q, "otpReferenceId"), OtpRequired),
     Rule(Is(q, "otpReferenceId", GuardedGet(def.request, "otpReferenceId")), OtpSessionInvalid),
     Rule(exact || !Is(q, "otp", Str(ExpiredOtp)), OtpExpired),
     Rule(exact, OtpInvalid)]
  }

  /** What a family answers once every row passes. */
  function Success(f: Family, def: Def): Outcome {
    match f
    case Health => if ShapeTruthy(def.response) then Canned(def.response) else HealthDefault
    case Default => if ShapeTruthy(def.response) then Canned(def.response) else Echo
    case _ => Canned(def.response)
  }

  /** The whole policy: the authorization precondition for guarded families,
      then the family's table. */
  function PolicyOutcome(f: Family, def: Def, q: Request): Outcome {
    if Guarded(f) && !HasValidAuth(def, q) then Unauthorized
    else Verdict(Rules(f, def, q), Success(f, def))
  }

  /** Verdict of a table with one, two, three or four rows, spelled out. */
  lemma VerdictUnrolled(rules: seq<Rule>, success: Outcome)
    requires 1 <= |rules| <= 4
    ensures Verdict(rules, success) ==
      if !rules[0].holds then Fail(rules[0].message)
      else if |rules| == 1 then success
      else if !rules[1].holds then Fail(rules[1].message)
      else if |rules| == 2 then success
      else if !rules[2].holds then Fail(rules[2].message)
      else if |rules| == 3 then success
      else if !rules[3].holds then Fail(rules[3].message)
      else success
  {
  }

  /** Every handler answers as its family's table, read top to bottom, says. */
  lemma {:induction false} HandlersFollowPolicy(f: Family, def: Def, q: Request)
    ensures Handle(f, def, q) == PolicyOutcome(f, def, q)
  {
    if f != Health && f != Default && (!Guarded(f) || HasValidAuth(def, q)) {
      VerdictUnrolled(Rules(f, def, q), Success(f, def));
    }
  }
}

=== FILE: properties.dfy ===
/** Properties that cut across the handlers and the registration loop: where
    the authorization precondition applies, which body fields each family
    can see, the order in which failures win, and the case-insensitive
    matching of delivery methods and contact modes. */
module Properties {
  import opened JsValues
  import opened Catalog
  import opened Auth
  import opened Handlers
  import opened Registry

  // ---------------------------------------------------------------------
  // The authorization precondition

  /** `Handle`'s 401 clause carried over to the HTTP status: the status is
      401 exactly when the family is guarded and the header check fails, so
      the token and health handlers never answer 401. */
  lemma UnauthorizedExactlyWhenGuarded(f: Family, def: Def, q: Request)
    ensures Handle(f, def, q) == Unauthorized <==> Guarded(f) && !HasValidAuth(def, q)
    ensures StatusCode(Handle(f, def, q)) == 401 <==> Guarded(f) && !HasValidAuth(def, q)
  {
  }

  /** When the header check fails, a guarded handler answers the same
      whatever the body holds. */
  lemma AuthFailureIgnoresBody(f: Family, def: Def, q: Request, body: map<string, JsValue>)
    requires Guarded(f) && !HasValidAuth(def, q)
    ensures Handle(f, def, Request(q.authorization, body)) == Handle(f, def, q) == Unauthorized
  {
  }

  /** The token handler never looks at the authorization header. */
  lemma TokenIgnoresHeader(def: Def, q1: Request, q2: Request)
    requires q1.body == q2.body
    ensures Handle(Token, def, q1) == Handle(Token, def, q2)
  {
  }

  /** The health handler looks at nothing in the request. */
  lemma HealthIgnoresRequest(def: Def, q1: Request, q2: Request)
    ensures Handle(Health, def, q1) == Handle(Health, def, q2)
  {
  }

  // ---------------------------------------------------------------------
  // Extra body fields

  /** The body keys each family reads. */
  function ReadKeys(f: Family): set<string> {
    match f
    case Token => {"authenticationKey"}
    case Login => {"username", "password"}
    case ForgotUsername => {"emailId"}
    case ForgotPasswordRequest => {"emailId"}
    case ForgotPasswordValidate => {"otp", "otpReferenceId"}
    case RegistrationOtpValidate => {"otp", "otpReferenceId"}
    case ForgotPasswordReset => {"validation-request-id", "newPassword", "confirmPassword"}
    case ValidateUser => {"loanNumber", "ssnLast4", "zipCode"}
    case CreateAccount => {"registrationid", "password", "confirmPassword"}
    case EmailVerification => {"email"}
    case RegistrationOtpRequest => {"deliveryMethod"}
    case Legal => {"acceptTermsAndPrivacy"}
    case Refinance => {"userId", "modeofcontact"}
    case Refresh => {"refreshToken"}
    case Health => {}
    case Default => {}
  }

  /** Two requests with the same header that agree on the keys a family reads
      get the same answer: other body fields (the profile fields of
      create-account and refinance among them) never change the outcome.
      The default handler is excluded because its echo copies the body. */
  lemma ExtraFieldsIgnored(f: Family, def: Def, q1: Request, q2: Request)
    requires f != Default
    requires q1.authorization == q2.authorization
    requires forall k :: k in ReadKeys(f) ==> BodyField(q1, k) == BodyField(q2, k)
    ensures Handle(f, def, q1) == Handle(f, def, q2)
  {
  }

  // ---------------------------------------------------------------------
  // Login

  /** When the catalog's `request` object names neither a username nor a
      password, a body without them logs in: undefined equals undefined. */
  lemma LoginMatchesMissingExpectations(def: Def, q: Request)
    requires def.request.Object?
    requires "username" !in def.request.fields && "password" !in def.request.fields
    requires "username" !in q.body && "password" !in q.body
    requires HasValidAuth(def, q)
    ensures LoginHandler(def, q) == Canned(def.response)
  {
  }

  /** `def.request && def.request.username` yields the request itself when
      it is falsy: a catalog `request: null` admits a body whose username
      and password are both null. */
  lemma LoginNullRequestAdmitsNulls(def: Def, q: Request)
    requires def.request == Scalar(Null)
    requires BodyField(q, "username") == Null && BodyField(q, "password") == Null
    requires HasValidAuth(def, q)
    ensures LoginHandler(def, q) == Canned(def.response)
  {
  }

  /** The two ways the handlers read the catalog's `request` differ only when
      it is a falsy value other than `undefined`. */
  lemma GuardedAndDefaultedGetDiffer(x: Shape, key: string)
    ensures GuardedGet(x, key) != DefaultedGet(x, key) <==> x.Scalar? && !Truthy(x.v) && x.v != Undef
  {
  }

  /** Any pair with a wrong field, a swapped pair among them, fails with the
      one generic message, so the answer does not tell which field was wrong. */
  lemma LoginWrongPairsFailAlike(def: Def, q: Request)
    requires HasValidAuth(def, q)
    requires || BodyField(q, "username") != GuardedGet(def.request, "username")
             || BodyField(q, "password") != GuardedGet(def.request, "password")
    ensures LoginHandler(def, q) == Fail(InvalidCredentials)
  {
  }

  /** The catalog's own pair logs in and gets the canned response verbatim,
      with status 200. */
  lemma LoginExample(def: Def, q: Request)
    requires HasValidAuth(def, q)
    requires def.request == Object(map["username" := Str("demo"), "password" := Str("demo123")])
    requires q.body == map["username" := Str("demo"), "password" := Str("demo123")]
    ensures LoginHandler(def, q) == Canned(def.response)
    ensures StatusCode(LoginHandler(def, q)) == 200
  {
  }

  // ---------------------------------------------------------------------
  // Email lookups

  /** If the catalog's expected email is not a non-empty string with `@`, no
      request ever passes the forgot-username or forgot-password lookup: the
      format check runs before the comparison. */
  lemma MalformedCatalogEmailUnreachable(def: Def, q: Request)
    requires !EmailShaped(GuardedGet(def.request, "emailId"))
    ensures !ForgotUsernameHandler(def, q).Canned?
    ensures !ForgotPasswordRequestHandler(def, q).Canned?
  {
  }

  // ---------------------------------------------------------------------
  // OTP validation

  /** A wrong reference id is reported whatever the code, even the right one
      or the expiry literal. */
  lemma OtpReferenceCheckedBeforeCode(def: Def, q: Request)
    requires HasValidAuth(def, q) && Present(q, "otp") && Present(q, "otpReferenceId")
    requires BodyField(q, "otpReferenceId") != GuardedGet(def.request, "otpReferenceId")
    ensures ForgotPasswordValidateHandler(def, q) == Fail(OtpSessionInvalid)
    ensures RegistrationOtpValidateHandler(def, q) == Fail(OtpSessionInvalid)
  {
  }

  /** When the catalog's expected code is itself `000000`, sending it succeeds:
      the exact match is checked before the expiry literal. */
  lemma ExpectedZerosCodeSucceeds(def: Def, q: Request)
    requires HasValidAuth(def, q)
    requires GuardedGet(def.request, "otp") == Str(ExpiredOtp)
    requires BodyField(q, "otp") == Str(ExpiredOtp)
    requires Present(q, "otpReferenceId")
    requires BodyField(q, "otpReferenceId") == GuardedGet(def.request, "otpReferenceId")
    ensures ForgotPasswordValidateHandler(def, q) == Canned(def.response)
  {
  }

  /** The expiry message: expected code `123456`, sent code `000000`, right
      reference id. */
  lemma ExpiredCodeExample(def: Def, q: Request)
    requires HasValidAuth(def, q)
    requires def.request == Object(map["otp" := Str("123456"), "otpReferenceId" := Str("ref-1")])
    requires BodyField(q, "otp") == Str("000000") && BodyField(q, "otpReferenceId") == Str("ref-1")
    ensures ForgotPasswordValidateHandler(def, q) == Fail(OtpExpired)
    ensures StatusCode(ForgotPasswordValidateHandler(def, q)) == 200
  {
  }

  // ---------------------------------------------------------------------
  // Validate-user, reset and create-account

  /** A missing field is reported before any mismatch, even when every
      present field is wrong. */
  lemma UserFieldsPresenceFirst(def: Def, q: Request)
    requires HasValidAuth(def, q)
    requires !Present(q, "zipCode")
    ensures ValidateUserHandler(def, q) == Fail(UserFieldsRequired)
  {
  }

  /** A successful reset or account creation carries the expected session id
      and two equal, non-empty passwords. */
  lemma PasswordFlowsSuccessImplies(def: Def, q: Request)
    ensures ForgotPasswordResetHandler(def, q).Canned? ==>
      && Present(q, "validation-request-id")
      && BodyField(q, "validation-request-id") == GuardedGet(def.request, "validation-request-id")
      && Present(q, "newPassword") && Present(q, "confirmPassword")
      && BodyField(q, "newPassword") == BodyField(q, "confirmPassword")
    ensures CreateAccountHandler(def, q).Canned? ==>
      && Present(q, "registrationid")
      && BodyField(q, "registrationid") == DefaultedGet(def.request, "registrationid")
      && Present(q, "password") && Present(q, "confirmPassword")
      && BodyField(q, "password") == BodyField(q, "confirmPassword")
  {
  }

  // ---------------------------------------------------------------------
  // Delivery method and contact mode

  /** Matching ignores ASCII case: two spellings with the same lower-case
      form get the same answer from both handlers. */
  lemma ModeMatchingIgnoresCase(def: Def, s1: string, s2: string, auth: Option<string>)
    requires Lower(s1) == Lower(s2)
    ensures RegistrationOtpRequestHandler(def, Request(auth, map["deliveryMethod" := Str(s1)])) ==
            RegistrationOtpRequestHandler(def, Request(auth, map["deliveryMethod" := Str(s2)]))
    ensures RefinanceHandler(def, Request(auth, map["userId" := DefaultedGet(def.request, "userId"), "modeofcontact" := Str(s1)])) ==
            RefinanceHandler(def, Request(auth, map["userId" := DefaultedGet(def.request, "userId"), "modeofcontact" := Str(s2)]))
  {
    assert Truthy(Str(s1)) <==> Truthy(Str(s2));
  }

  /** `SMS`, `Sms` and `sms` are all accepted delivery methods. */
  lemma SmsInAnyCase(def: Def, q: Request)
    requires HasValidAuth(def, q)
    requires BodyField(q, "deliveryMethod") in {Str("SMS"), Str("Sms"), Str("sms")}
    ensures RegistrationOtpRequestHandler(def, q) == Canned(def.response)
  {
    var s := BodyField(q, "deliveryMethod").s;
    var l := Lower(s);
    assert l[0] == 's' && l[1] == 'm' && l[2] == 's';
    assert l == "sms";
  }

  /** The spellings on which the two accepted sets disagree. */
  lemma SpellingsDiffer()
    ensures "email or call" in ContactModes && "email or call" !in DeliveryMethods
    ensures "sms" in DeliveryMethods && "sms" !in ContactModes
  {
  }

  /** The literal lowering behind `AcceptedSetsDiffer`, kept apart from the
      set membership. */
  lemma LowerEmailOrCall()
    ensures Lower("email or call") == "email or call"
  {
    LowerOfLowerCase("email or call");
  }

  /** The literal lowering behind `AcceptedSetsDiffer`, kept apart from the
      set membership. */
  lemma LowerSms()
    ensures Lower("sms") == "sms"
  {
    LowerOfLowerCase("sms");
  }

  /** The two accepted sets differ: `email or call` passes refinance but not
      the OTP request, and `sms` the other way round. */
  lemma AcceptedSetsDiffer()
    ensures Lower("email or call") in ContactModes && Lower("email or call") !in DeliveryMethods
    ensures Lower("sms") in DeliveryMethods && Lower("sms") !in ContactModes
  {
    LowerEmailOrCall();
    LowerSms();
    SpellingsDiffer();
  }

  /** Every accepted delivery method and contact mode starts with a small
      letter. */
  lemma AcceptedSpellingsStartWithLetter(t: string)
    requires t in DeliveryMethods || t in ContactModes
    ensures |t| >= 1 && 'a' <= t[0] <= 'z'
  {
  }

  /** A number or boolean is never an accepted delivery method or contact
      mode: a number's string starts with `-` or a digit, which lower-casing
      keeps, and `true` and `false` are spelt in neither set. */
  lemma NonStringModesUnsupported(v: JsValue)
    requires v.Num? || v.Bool?
    ensures !LowerIn(v, DeliveryMethods) && !LowerIn(v, ContactModes)
  {
    var s := ToJsString(v);
    var l := Lower(s);
    if v.Num? {
      assert |s| >= 1 && (s[0] == '-' || '0' <= s[0] <= '9');
      assert l[0] == s[0];
      if l in DeliveryMethods || l in ContactModes {
        AcceptedSpellingsStartWithLetter(l);
        assert false;
      }
    } else {
      assert s == "true" || s == "false";
      LowerOfLowerCase(s);
      assert l == s;
    }
  }

  // ---------------------------------------------------------------------
  // Registration

  /** The special routes and the families they select are in one-to-one
      correspondence. */
  lemma SpecialRoutesRoundTrip(f: Family)
    requires f != Default
    ensures FamilyOf(RouteOf(f)) == f
  {
  }

  /** Registration processes the catalog in order: registering a catalog in
      two parts gives the two parts' bindings, one after the other. */
  lemma {:induction false} RegisterConcatenates(a: seq<Entry>, b: seq<Entry>)
    requires Register(a).Success? && Register(b).Success?
    ensures Register(a + b) == Success(Register(a).value + Register(b).value)
  {
    if a != [] {
      var e := a[0];
      assert (a + b)[0] == e;
      assert (a + b)[1..] == a[1..] + b;
      var verb := NormalizeMethod(e.def.httpMethod).value;
      assert Register(a[1..]).Success?;
      RegisterConcatenates(a[1..], b);
      if verb in AllowedVerbs {
        var bound := Binding(verb, BasePath + e.route, FamilyOf(e.route), e.def);
        assert Register(a).value == [bound] + Register(a[1..]).value;
        assert Register(a + b).value == [bound] + Register(a[1..] + b).value;
        assert [bound] + (Register(a[1..]).value + Register(b).value)
            == ([bound] + Register(a[1..]).value) + Register(b).value;
      } else {
        assert Register(a).value == Register(a[1..]).value;
        assert Register(a + b).value == Register(a[1..] + b).value;
      }
    } else {
      assert a + b == b;
      assert Register(a) == Success([]);
      assert Register(a).value + Register(b).value == Register(b).value;
    }
  }

  /** Every bound path is the route under the base path, with a supported
      verb. */
  lemma BindingsUnderBasePath(catalog: seq<Entry>, b: Binding)
    requires Register(catalog).Success? && b in Register(catalog).value
    ensures b.verb in AllowedVerbs
    ensures StartsWith(b.path, BasePath)
    ensures exists i :: 0 <= i < |catalog| && b.path == BasePath + catalog[i].route
  {
  }

  /** An entry without a method is bound under `get`. */
  lemma MissingMethodBindsGet(route: string, def: Def)
    requires !Truthy(def.httpMethod)
    ensures Register([Entry(route, def)]) == Success([Binding("get", BasePath + route, FamilyOf(route), def)])
  {
    assert [Entry(route, def)][1..] == [];
    assert NormalizeMethod(def.httpMethod) == Some("get");
    assert "get" in AllowedVerbs;
    assert Register([]) == Success([]);
    var bound := Binding("get", BasePath + route, FamilyOf(route), def);
    assert [bound] + [] == [bound];
    assert Register([Entry(route, def)]) == Success([bound] + Register([]).value);
  }

  /** An entry whose method is not one of the five verbs is skipped. */
  lemma UnsupportedMethodSkipped(route: string, def: Def)
    requires def.httpMethod == Str("OPTIONS")
    ensures Register([Entry(route, def)]) == Success([])
  {
  }
}

=== FILE: registry.dfy ===
/** The registration loop: for each catalog entry, in catalog order, the
    method is normalised, filtered against the five supported verbs, the
    route is mounted under the base path, and the route string chooses the
    handler family. */
module Registry {
  import opened JsValues
  import opened Catalog
  import opened Handlers

  const BasePath := "/mock"

  /** Lower-cased verbs the server binds. */
  const AllowedVerbs: set<string> := {"get", "post", "put", "patch", "delete"}

  /** A catalog entry: its route key and its definition. */
  datatype Entry = Entry(route: string, def: Def)

  /** A bound route: verb, full path, and the handler chosen for it. */
  datatype Binding = Binding(verb: string, path: string, family: Family, def: Def)

  datatype Result<T> = Success(value: T) | Failure(route: string)

  /** `(def.method || 'GET').toLowerCase()`. A truthy value that is not a
      string has no `toLowerCase`, and the call throws (None). */
  function NormalizeMethod(m: JsValue): (r: Option<string>)
    ensures !Truthy(m) ==> r == Some("get")
    ensures Truthy(m) && m.Str? ==> r.Some? && r.value == Lower(m.s)
    ensures r.None? <==> Truthy(m) && !m.Str?
  {
    if !Truthy(m) then
      var get := Lower("GET");
      assert get == "get" by {
        assert get[0] == 'g' && get[1] == 'e' && get[2] == 't';
      }
      Some(get)
    else if m.Str? then Some(Lower(m.s))
    else None
  }

  /** The route each special family is registered for. */
  function RouteOf(f: Family): string
    requires f != Default
  {
    match f
    case Token => "/auth/token"
    case Login => "/auth/login"
    case ForgotUsername => "/auth/forgot-username"
    case ForgotPasswordRequest => "/auth/forgot-password/request"
    case ForgotPasswordValidate => "/auth/forgot-password/validate"
    case ForgotPasswordReset => "/auth/forgot-password/reset"
    case ValidateUser => "/registration/validate-user"
    case CreateAccount => "/registration/create-account"
    case EmailVerification => "/registration/email-verification"
    case RegistrationOtpRequest => "/registration/otp/request"
    case RegistrationOtpValidate => "/registration/otp/validate"
    case Legal => "/legal/terms-privacy"
    case Refinance => "/refinance"
    case Refresh => "/auth/refresh"
    case Health => "/__health"
  }

  /** The registration `switch (route)`: exact string cases, default last. */
  function FamilyOf(route: string): (f: Family)
    ensures f != Default ==> RouteOf(f) == route
    ensures f == Default <==> forall g: Family :: g != Default ==> RouteOf(g) != route
  {
    match route
    case "/auth/token" => Token
    case "/auth/login" => Login
    case "/auth/forgot-username" => ForgotUsername
    case "/auth/forgot-password/request" => ForgotPasswordRequest
    case "/auth/forgot-password/validate" => ForgotPasswordValidate
    case "/auth/forgot-password/reset" => ForgotPasswordReset
    case "/registration/validate-user" => ValidateUser
    case "/registration/create-account" => CreateAccount
    case "/registration/email-verification" => EmailVerification
    case "/registration/otp/request" => RegistrationOtpRequest
    case "/registration/otp/validate" => RegistrationOtpValidate
    case "/legal/terms-privacy" => Legal
    case "/refinance" => Refinance
    case "/auth/refresh" => Refresh
    case "/__health" => Health
    case _ => Default
  }

  /** Entry `e` gives rise to binding `b`. */
  predicate Binds(e: Entry, b: Binding) {
    && NormalizeMethod(e.def.httpMethod) == Some(b.verb)
    && b.verb in AllowedVerbs
    && b == Binding(b.verb, BasePath + e.route, FamilyOf(e.route), e.def)
  }

  /** Entry `e` makes the loop throw. */
  predicate Throws(e: Entry) {
    NormalizeMethod(e.def.httpMethod).None?
  }

  /** The registration loop over the entries in catalog order. It fails,
      naming the first offending route, when an entry's method cannot be
      lower-cased; otherwise it binds each entry with a supported verb and
      skips the rest. */
  function Register(catalog: seq<Entry>): (r: Result<seq<Binding>>)
    ensures r.Failure? <==> exists i :: 0 <= i < |catalog| && Throws(catalog[i])
    ensures r.Failure? ==> exists i :: 0 <= i < |catalog| && Throws(catalog[i]) && catalog[i].route == r.route
                                        && forall j :: 0 <= j < i ==> !Throws(catalog[j])
    ensures r.Success? ==> |r.value| <= |catalog|
    ensures r.Success? ==> forall b :: b in r.value <==> exists i :: 0 <= i < |catalog| && Binds(catalog[i], b)
  {
    if catalog == [] then Success([])
    else
      var e := catalog[0];
      match NormalizeMethod(e.def.httpMethod)
      case None => Failure(e.route)
      case Some(verb) =>
        match Register(catalog[1..])
        case Failure(route) => Failure(route)
        case Success(rest) =>
          if verb in AllowedVerbs then
            Success([Binding(verb, BasePath + e.route, FamilyOf(e.route), e.def)] + rest)
          else
            Success(rest)
  }
}
